=== FILE: README.md ===
# xcap window enumeration on Linux (X11), in Dafny

This project models the X11 window-listing core of xcap's Linux backend,
`src/linux/impl_window.rs`:

- `get_atom` interns an atom name and rejects `NONE`.
- `get_window_pid` reads `_NET_WM_PID`.
- `get_active_window_id` reads the first root that reports `_NET_ACTIVE_WINDOW`.
- `ImplWindow::new` resolves one client window. It reads the title and the
  app name from `WM_CLASS`, computes the position and size, assigns the
  monitor with the largest overlap, and decodes minimised/maximised from
  `_NET_WM_STATE`.
- `ImplWindow::all` walks `_NET_CLIENT_LIST_STACKING` on every root. It
  numbers clients with a running `z`, skips the ones whose pid or
  resolution fails, and returns the rest in reverse order.

Every server round trip becomes input data: an `Option` that is absent
when the reply fails. A window property is given as the server stores it,
with its type and its items. `XProto.ReadProperty` turns that into the
reply value for the request's type and `long_length`. A property stored
under a type other than the one requested reads as empty, and a request
for any type (`ATOM_NONE`) reads every type. The operations are pure
functions over these replies, written in the source's order of `?`
early returns. The enumeration loop is also a `method` with loop
invariants (`Enumerate.All`, `VisitScreens`, `VisitClients`,
`VisitClient`), and it is proved equal to the functional description
`Reverse(Collect(Outcomes(ListedClients(...))))`.

Modules, one file each:

- `Wrappers`: `Option` and `Result`.
- `XProto`: atoms, replies, property truncation, `get_atom`, `get_window_pid`.
- `Geometry`: rectangles and overlap area.
- `MonitorAssign`: the largest-overlap monitor choice.
- `WindowState`: `_NET_WM_STATE` decoding.
- `ClassName`: `WM_CLASS` splitting.
- `ActiveWindow`: the active-window lookup.
- `Resolve`: `ImplWindow::new`.
- `Enumerate`: `ImplWindow::all`.

The window state names come from section 5 of the Extended Window Manager
Hints ("Application Window Properties", `_NET_WM_STATE`). The client list
comes from section 3 ("Root Window Properties").

## Model

| member | source | states |
|---|---|---|
| XProto.GetAtom | src/linux/impl_window.rs:34-47 | Succeeds exactly when the InternAtom reply arrives and is not `NONE`, and then returns that atom. A missing reply gives a connection error. A `NONE` reply gives "`<name>` not supported", carrying the name. |
| XProto.ReadItems | src/linux/impl_window.rs:49-69 | A GetProperty reply holds the first `min(stored, long_length)` items of the stored value, as a prefix. |
| XProto.ReadProperty | src/linux/impl_window.rs:49-69 | With a matching stored type, or with any type requested, the reply value is the first `min(stored, long_length)` items, as a prefix. A property stored under another type reads as empty. |
| XProto.GetWindowPid | src/linux/impl_window.rs:71-81 | Succeeds exactly when the `_NET_WM_PID` atom resolves, the property read succeeds, and the property is a non-empty CARDINAL. The pid is its first item. A failed `_NET_WM_PID` lookup passes on `get_atom`'s error: a connection error for a missing InternAtom reply, "`_NET_WM_PID` not supported" for `NONE`. A failed GetProperty round trip is a connection error. An empty or non-CARDINAL property gives "Get window pid failed". |
| ActiveWindow.FirstActive | src/linux/impl_window.rs:87-96 | Roots are scanned in order. The first root with a non-empty value, after roots with empty values, supplies its first value. A failed read before any hit aborts the whole lookup with `None`. All-empty values give `None`. |
| ActiveWindow.GetActiveWindowId | src/linux/impl_window.rs:83-97 | A failed `_NET_ACTIVE_WINDOW` atom lookup gives `None`. Otherwise the result is the root scan. |
| ActiveWindow.FirstActiveCases | src/linux/impl_window.rs:87-96 | A window is reported if and only if some root has a non-empty value and every earlier root read succeeded with an empty value. |
| Geometry.OverlapLength | src/linux/impl_window.rs:167 | The 1-D intersection is at most either length. It is positive exactly when both lengths are positive and the intervals overlap. It is the whole length when one interval contains the other. |
| Geometry.OverlapArea | src/linux/impl_window.rs:167 | The intersection area of window and monitor is positive exactly when both axis overlaps are positive. |
| Geometry.OverlapAreaSymmetric | src/linux/impl_window.rs:167 | The overlap area does not depend on argument order. |
| Geometry.OverlapAreaContained | src/linux/impl_window.rs:155-167 | A window inside a monitor overlaps it by its whole area. |
| Geometry.OverlapAreaBounded | src/linux/impl_window.rs:167 | The overlap area is at most the area of either rectangle. |
| MonitorAssign.Scan | src/linux/impl_window.rs:150-172 | The loop, with `max_area` and `find_result` as its invariant, returns the first monitor of greatest overlap. It replaces the candidate only on a strictly larger area. |
| MonitorAssign.AssignedIndex | src/linux/impl_window.rs:149-175 | For a non-empty monitor list, the chosen index has maximal overlap, and every earlier monitor has strictly less. |
| MonitorAssign.AssignMonitor | src/linux/impl_window.rs:149-175 | Fails, with "Get screen info failed", exactly when there are no monitors. Otherwise it returns the first monitor of greatest overlap. |
| MonitorAssign.FirstMaxUnique | src/linux/impl_window.rs:168-171 | The first-maximum characterisation determines the index uniquely. |
| MonitorAssign.AssignMonitorIs | src/linux/impl_window.rs:149-175 | Any index meeting the first-maximum characterisation is the one assigned. |
| MonitorAssign.NoOverlapAssignsFirst | src/linux/impl_window.rs:150-153 | A window overlapping no monitor is assigned the first monitor, the initial `find_result`. |
| MonitorAssign.SoleOverlapAssignsIt | src/linux/impl_window.rs:158-172 | A window overlapping exactly one monitor is assigned that monitor. |
| MonitorAssign.TieGoesToFirstMonitor | src/linux/impl_window.rs:168-171 | Take two 1920x1080 monitors side by side and a window straddling them with equal area on each. The earlier monitor wins, because the test is `>`. |
| MonitorAssign.ContainedWindowAssignsItsMonitor | src/linux/impl_window.rs:155-172 | For two 1920x1080 monitors side by side, a 100x100 window inside the left one only is assigned the left one, in either list order. `SoleOverlapAssignsIt` is the general fact. |
| WindowState.Contains | src/linux/impl_window.rs:188-196 | `iter().any(== atom)` is membership. |
| WindowState.DecodeState | src/linux/impl_window.rs:188-200 | Minimised if and only if `_HIDDEN` is listed. Maximised if and only if it is not hidden and both `_MAXIMIZED_VERT` and `_MAXIMIZED_HORZ` are listed. The two are never both set. |
| WindowState.DecodeStateIgnoresOrder | src/linux/impl_window.rs:188-196 | Only which atoms are listed matters, not their order or repetition. |
| ClassName.Split | src/linux/impl_window.rs:121 | `split('\0')` yields at least one part, and no part contains NUL. |
| ClassName.JoinSplit | src/linux/impl_window.rs:121 | Re-joining the parts with NUL gives back the original string. |
| ClassName.FirstNonEmpty | src/linux/impl_window.rs:122-123 | The result is `""` exactly when every part is empty. Otherwise it is the first non-empty part: every earlier part is empty. |
| ClassName.AppName | src/linux/impl_window.rs:118-124 | The app name contains no NUL and is the first maximal run of non-NUL characters after any leading NULs. |
| ClassName.SplitHead | src/linux/impl_window.rs:121 | The first part of the split is the text before the first NUL. |
| ClassName.FirstNonEmptyOfSplit | src/linux/impl_window.rs:120-123 | `.split('\0').find(non-empty).unwrap_or("")` equals the text before the first NUL that follows the leading NULs. |
| ClassName.AppNameShape | src/linux/impl_window.rs:118-124 | The app name contains no NUL. It is empty exactly when the class is all NUL. It occurs in the class right after the leading NULs, followed by NUL or the end. |
| ClassName.AppNameOfLeadingRun | src/linux/impl_window.rs:120-124 | For the usual `instance\0class\0` layout, the app name is the instance part. |
| ClassName.FirefoxExample | src/linux/impl_window.rs:120-124 | `"Firefox\0firefox\0"` yields `"Firefox"`. |
| Resolve.ReadText | src/linux/impl_window.rs:108-118 | Reads the property as STRING, at most 4x1024 bytes, and decodes them as UTF-8. A property stored under another type decodes as no bytes. A decode failure gives a decode error. A missing reply gives a connection error. |
| Resolve.MistypedTitleReadsEmpty | src/linux/impl_window.rs:108-112 | A title stored under a type other than STRING yields a window with an empty title, whatever bytes it holds. |
| Resolve.Position | src/linux/impl_window.rs:141-143 | The window origin, offset by the parent-relative `x`/`y`, gives the translated point. |
| Resolve.NewWindow | src/linux/impl_window.rs:100-220 | A resolved window carries the handle, pid, `z` and focus flag it was given. |
| Resolve.NewWindowSpec | src/linux/impl_window.rs:100-220 | `new` succeeds exactly when every reply arrives, both texts decode, there is a monitor and the four state atoms resolve. An undecodable title is a decode error. On success the window's fields are these: the title and the first non-empty `WM_CLASS` part; the translated position; the reply's size; the largest-overlap monitor; and min/max decoded from the first 12 state atoms of an ATOM-typed `_NET_WM_STATE`. |
| Resolve.HiddenBeyondStateLimitIgnored | src/linux/impl_window.rs:184-188 | A `_HIDDEN` atom stored after the 12th state entry does not make the window minimised. |
| Enumerate.ActiveValue | src/linux/impl_window.rs:89-91 | A root's `_NET_ACTIVE_WINDOW` read, with any type accepted, is absent exactly when the read fails. It is a prefix of the stored items, and it is non-empty exactly when they are. |
| Enumerate.Active | src/linux/impl_window.rs:230 | Computed once before the loop. An unsupported `_NET_ACTIVE_WINDOW` atom gives no window. Otherwise the first root whose value is non-empty, after roots with empty values, supplies its first value. A failed read before that gives none, and so do all-empty values. |
| Enumerate.ListedClients | src/linux/impl_window.rs:236-260 | The visited clients, root after root. There are at most 1024 per root. |
| Enumerate.ListedClientsMembers | src/linux/impl_window.rs:236-260 | A client is visited if and only if some root lists it. |
| Enumerate.Listed | src/linux/impl_window.rs:239-258 | A root contributes nothing when QueryPointer fails, the pointer is on another screen or the client list cannot be read. Otherwise it contributes the first 1024 listed clients. |
| Enumerate.Resolved | src/linux/impl_window.rs:260-282 | A resolved client carries the `z` it was numbered with. |
| Enumerate.ResolvedSpec | src/linux/impl_window.rs:262-282 | A client yields a window exactly when its pid is found and `new` succeeds. The window keeps the client's id and pid. It is focused if and only if its id is the active window. It is well formed. |
| Enumerate.Outcomes | src/linux/impl_window.rs:260-283 | There is one outcome per listed client, and each success carries its own list position as `z`. |
| Enumerate.OutcomesAt | src/linux/impl_window.rs:260-273 | The outcome at position `i` is client `i` resolved with `z = i`. |
| Enumerate.Collect | src/linux/impl_window.rs:272-276 | `impl_windows` before the reversal holds only successful outcomes, each at the position its `z` names, with `z` strictly increasing. |
| Enumerate.CollectComplete | src/linux/impl_window.rs:272-276 | Every successful outcome is pushed. |
| Enumerate.Reverse | src/linux/impl_window.rs:287 | `reverse()` keeps the length and maps index `i` to `n-1-i`. |
| Enumerate.All | src/linux/impl_window.rs:222-290 | A failed connection is a connection error. `all` succeeds exactly when it connects, `_NET_CLIENT_LIST_STACKING` resolves and the monitors are listed. Its result is the successful resolutions of the listed clients, frontmost (largest `z`) first, with `z` strictly decreasing and below the number of listed clients. Every window is well formed and is focused if and only if it is the active window. |
| Enumerate.FrontmostFirst | src/linux/impl_window.rs:272-287 | After the reversal, `z` strictly decreases. Every window has a `z` below the number of listed clients, its largest-overlap monitor, and its focus flag set exactly when it is the active window. |
| Enumerate.VisitScreens | src/linux/impl_window.rs:235-285 | The outer loop over roots, starting at `z = -1`, leaves `impl_windows` equal to the collected outcomes of every listed client. |
| Enumerate.VisitClients | src/linux/impl_window.rs:260-283 | The inner loop raises `z` once per listed client, including skipped ones. It extends `impl_windows` by exactly those clients' successful outcomes. |
| Enumerate.VisitClient | src/linux/impl_window.rs:261-282 | One loop body appends the client's window exactly when pid lookup and `new` both succeed. |
| Enumerate.CollectStep | src/linux/impl_window.rs:261-276 | One client's outcome: `None` on pid failure, otherwise `new` called with that pid, its `z` and its focus flag. |
| Enumerate.CollectSnoc | src/linux/impl_window.rs:272-276 | Pushing one outcome appends its window, or nothing on failure. |
| Enumerate.FailedOutcomeOnlyDropsItsWindow | src/linux/impl_window.rs:262-282 | Failing one client removes only that client's window. Every other window stays, in order. |
| Enumerate.FailedClientOnlyDropsItsWindow | src/linux/impl_window.rs:272-282 | Replacing the client at position `i` by one that fails to resolve removes exactly the window with `z = i`. |
| Enumerate.PidFailureOnlyDropsItsWindow | src/linux/impl_window.rs:262-268 | A client whose pid cannot be read is skipped. No other window changes, and their `z` values do not shift. |
| Enumerate.ResolvedClientPresent | src/linux/impl_window.rs:272-276 | A client that resolves appears in the result. |
| Enumerate.InvalidTitleAbsent | src/linux/impl_window.rs:108-112 | A client whose title is not UTF-8 yields no window. |
| Enumerate.CollectedWindowsWellFormed | src/linux/impl_window.rs:270-276 | Every collected window has its largest-overlap monitor, is never both minimised and maximised, and is focused if and only if it is the active window. |
| Enumerate.ListedClientsAppend | src/linux/impl_window.rs:236-260 | The clients of consecutive roots are concatenated in root order. |
| Enumerate.SkippedScreenContributesNothing | src/linux/impl_window.rs:242-258 | Removing a root that is skipped (pointer query failed, other screen, unreadable list) does not change the listed clients. |

## Left out

- The XCB connection, cookies and replies are inputs. Every round trip is an `Option` that is absent on failure. The model has no protocol encoding, no timing and no concurrency.
- `str::from_utf8` is the parameter `decode`. UTF-8 validation is outside the model. `Resolve.ReadText` states which bytes are decoded.
- The coordinate subtraction at src/linux/impl_window.rs:142-143 is `i16` arithmetic, which can overflow in Rust. The model uses unbounded `int`, so it has no overflow panic or wrap-around.
- `Rect::overlap_area` (src/linux/utils.rs, imported at src/linux/impl_window.rs:14) is not part of this model, and its body is not available. `Geometry.OverlapArea` is the standard intersection area over unbounded integers, so its edge cases (touching or zero-size rectangles), its integer widths and any overflow of its `u32` product are unchecked.
- `ImplMonitor::all` is not part of this model. Its result is the input `monitors`, and a monitor is its id and bounds. Other monitor fields are left out.
- `capture_image`, the `log::error!` calls and the `window` handle field are left out. The handle is represented by `id`.
- `Enumerate.All`: `z` is `i32` in the source and `int` here. Wrap-around after 2^31 clients is not modelled, and the 1024-entry list limit per root makes that far out of reach anyway.
- A GetProperty reply's `format`, `type` and `bytes_after` fields are not modelled; only its value is. The element width of a reply is taken to match the width read, and xcb's format check in `value` is not modelled.
- The `z` values are not contiguous. A skipped client still takes up its `z`, as the code at src/linux/impl_window.rs:261-268 does. A contiguous numbering would need `z` to advance only on success; the source advances it for every listed client.
- A `WM_CLASS` value that is not UTF-8 makes `new` fail, as src/linux/impl_window.rs:118 does. It does not yield an empty app name.

=== FILE: active_window.dfy ===
/** `get_active_window_id`: the focused window is the first value of
    `_NET_ACTIVE_WINDOW` on the first root that has one; a root whose
    property cannot be read ends the search with no answer. */
module ActiveWindow {
  import opened Wrappers
  import opened XProto

  /** Every root before `i` answered with an empty property. */
  ghost predicate EmptyBefore(replies: seq<Option<seq<u32>>>, i: int)
    requires 0 <= i <= |replies|
  {
    forall j :: 0 <= j < i ==> replies[j] == Some([])
  }

  /** The loop over `setup.roots()`; `replies[i]` is the property value
      read on root `i`, absent when the read failed. */
  function FirstActive(replies: seq<Option<seq<u32>>>): (r: Option<WindowId>)
    ensures forall i :: 0 <= i < |replies| && EmptyBefore(replies, i) && replies[i].Some? && |replies[i].value| > 0 ==>
              r == Some(replies[i].value[0])
    ensures forall i :: 0 <= i < |replies| && EmptyBefore(replies, i) && replies[i].None? ==>
              r == None
    ensures EmptyBefore(replies, |replies|) ==> r == None
  {
    if |replies| == 0 then None
    else match replies[0]
      case None => None
      case Some(values) =>
        if |values| > 0 then Some(values[0])
        else
          var r := FirstActive(replies[1..]);
          assert forall i :: 1 <= i <= |replies| && EmptyBefore(replies, i) ==> EmptyBefore(replies[1..], i - 1);
          r
  }

  /** An unsupported `_NET_ACTIVE_WINDOW` atom means no window is focused. */
  function GetActiveWindowId(atomReply: Option<Atom>, replies: seq<Option<seq<u32>>>): (r: Option<WindowId>)
    ensures GetAtom("_NET_ACTIVE_WINDOW", atomReply).Failure? ==> r == None
    ensures GetAtom("_NET_ACTIVE_WINDOW", atomReply).Success? ==> r == FirstActive(replies)
  {
    var _ :- GetAtom("_NET_ACTIVE_WINDOW", atomReply).ToOption();
    FirstActive(replies)
  }

  /** The decisive root is the first whose answer is not an empty
      property; every reply list has one or is empty throughout. */
  lemma {:induction false} FirstActiveCases(replies: seq<Option<seq<u32>>>)
    ensures FirstActive(replies).Some? <==>
              exists i :: 0 <= i < |replies| && EmptyBefore(replies, i) && replies[i].Some? && |replies[i].value| > 0
  {
    if |replies| > 0 && replies[0] == Some([]) {
      var rest := replies[1..];
      FirstActiveCases(rest);
      assert FirstActive(replies) == FirstActive(rest);
      if FirstActive(replies).Some? {
        var i :| 0 <= i < |rest| && EmptyBefore(rest, i) && rest[i].Some? && |rest[i].value| > 0;
        assert replies[i + 1] == rest[i];
        assert EmptyBefore(replies, i + 1);
      }
      if exists i :: 0 <= i < |replies| && EmptyBefore(replies, i) && replies[i].Some? && |replies[i].value| > 0 {
        var i :| 0 <= i < |replies| && EmptyBefore(replies, i) && replies[i].Some? && |replies[i].value| > 0;
        assert i > 0;
        assert rest[i - 1] == replies[i];
        assert EmptyBefore(rest, i - 1);
      }
    } else if |replies| > 0 && replies[0].Some? {
      assert EmptyBefore(replies, 0);
    }
  }
}

=== FILE: class_name.dfy ===
/** The application name of a window: the first non-empty component of
    its WM_CLASS string split on NUL. WM_CLASS holds the instance and
    class names, each NUL-terminated, e.g. "firefox\0Firefox\0". */
module ClassName {

  const NUL: char := '\0'

  /** `str::split(sep)`: the pieces between separators, in order,
      including empty ones; n separators give n + 1 pieces. */
  function Split(s: string, sep: char): (parts: seq<string>)
    ensures |parts| >= 1
    ensures forall i :: 0 <= i < |parts| ==> sep !in parts[i]
    decreases |s|
  {
    if |s| == 0 then [""]
    else
      var rest := Split(s[1..], sep);
      if s[0] == sep then [""] + rest
      else [[s[0]] + rest[0]] + rest[1..]
  }

  /** Puts the pieces back together with `sep` between them. */
  function Join(parts: seq<string>, sep: char): string
    requires |parts| >= 1
    decreases |parts|
  {
    if |parts| == 1 then parts[0] else parts[0] + [sep] + Join(parts[1..], sep)
  }

  /** Splitting loses nothing: joining the pieces gives the string back. */
  lemma {:induction false} JoinSplit(s: string, sep: char)
    ensures Join(Split(s, sep), sep) == s
    decreases |s|
  {
    if |s| > 0 {
      var rest := Split(s[1..], sep);
      JoinSplit(s[1..], sep);
      if s[0] == sep {
        assert Split(s, sep) == [""] + rest;
        assert ([""] + rest)[1..] == rest;
      } else {
        var parts := [[s[0]] + rest[0]] + rest[1..];
        assert Split(s, sep) == parts;
        if |rest| == 1 {
          assert Join(parts, sep) == [s[0]] + rest[0];
        } else {
          assert parts[1..] == rest[1..];
          assert Join(parts, sep) == [s[0]] + rest[0] + [sep] + Join(rest[1..], sep);
          assert Join(rest, sep) == rest[0] + [sep] + Join(rest[1..], sep);
        }
        assert s == [s[0]] + s[1..];
      }
    }
  }

  /** `.find(|str| !str.is_empty()).unwrap_or("")`. */
  function FirstNonEmpty(parts: seq<string>): (r: string)
    ensures r == "" || r in parts
    ensures r == "" <==> forall i :: 0 <= i < |parts| ==> parts[i] == ""
    ensures r != "" ==> exists k :: 0 <= k < |parts| && parts[k] == r && forall j :: 0 <= j < k ==> parts[j] == ""
  {
    if |parts| == 0 then ""
    else if parts[0] != "" then parts[0]
    else
      var r := FirstNonEmpty(parts[1..]);
      assert r != "" ==> exists k :: 1 <= k < |parts| && parts[k] == r && forall j :: 0 <= j < k ==> parts[j] == "" by {
        if r != "" {
          var k :| 0 <= k < |parts[1..]| && parts[1..][k] == r && forall j :: 0 <= j < k ==> parts[1..][j] == "";
          assert parts[k + 1] == r && forall j :: 0 <= j < k + 1 ==> parts[j] == "";
        }
      }
      r
  }

  /** The `app_name` block of `ImplWindow::new` on the decoded class string:
      the first NUL-free run after the leading NULs. */
  function AppName(wmClass: string): (r: string)
    ensures NUL !in r
    ensures r == TakeUntilNul(wmClass[LeadingNuls(wmClass)..])
  {
    FirstNonEmptyOfSplit(wmClass);
    FirstNonEmpty(Split(wmClass, NUL))
  }

  /** The number of NULs `s` starts with. */
  function LeadingNuls(s: string): (n: nat)
    ensures n <= |s|
    ensures forall i :: 0 <= i < n ==> s[i] == NUL
    ensures n < |s| ==> s[n] != NUL
  {
    if |s| > 0 && s[0] == NUL then 1 + LeadingNuls(s[1..]) else 0
  }

  /** The longest NUL-free prefix of `s`. */
  function TakeUntilNul(s: string): (r: string)
    ensures r <= s
    ensures NUL !in r
    ensures |r| == |s| || s[|r|] == NUL
  {
    if |s| == 0 || s[0] == NUL then "" else [s[0]] + TakeUntilNul(s[1..])
  }

  /** The first piece of a split is the text before the first separator. */
  lemma {:induction false} SplitHead(s: string)
    ensures Split(s, NUL)[0] == TakeUntilNul(s)
    decreases |s|
  {
    if |s| > 0 && s[0] != NUL {
      SplitHead(s[1..]);
    }
  }

  /** The application name is the first NUL-free run after the leading
      NULs: empty exactly when the class string is all NULs. */
  lemma {:induction false} FirstNonEmptyOfSplit(wmClass: string)
    ensures FirstNonEmpty(Split(wmClass, NUL)) == TakeUntilNul(wmClass[LeadingNuls(wmClass)..])
    decreases |wmClass|
  {
    if |wmClass| > 0 {
      if wmClass[0] == NUL {
        FirstNonEmptyOfSplit(wmClass[1..]);
        assert Split(wmClass, NUL) == [""] + Split(wmClass[1..], NUL);
        assert ([""] + Split(wmClass[1..], NUL))[1..] == Split(wmClass[1..], NUL);
        assert wmClass[LeadingNuls(wmClass)..] == wmClass[1..][LeadingNuls(wmClass[1..])..];
      } else {
        SplitHead(wmClass[1..]);
      }
    }
  }

  /** The result contains no NUL, is empty only for an all-NUL string, and
      otherwise sits right after the leading NULs, followed by a NUL or the end. */
  lemma AppNameShape(wmClass: string)
    ensures NUL !in AppName(wmClass)
    ensures AppName(wmClass) == "" <==> forall i :: 0 <= i < |wmClass| ==> wmClass[i] == NUL
    ensures var k, r := LeadingNuls(wmClass), AppName(wmClass);
            && k + |r| <= |wmClass|
            && wmClass[k..k + |r|] == r
            && (k + |r| == |wmClass| || wmClass[k + |r|] == NUL)
  {
    var k := LeadingNuls(wmClass);
    var r := AppName(wmClass);
    assert wmClass[k..][..|r|] == wmClass[k..k + |r|];
    if k < |wmClass| {
      assert wmClass[k..][0] == wmClass[k];
    }
  }

  /** A class string that starts with a non-empty NUL-free run ended by a
      NUL names the application by that run. */
  lemma AppNameOfLeadingRun(run: string, rest: string)
    requires |run| > 0 && NUL !in run
    ensures AppName(run + [NUL] + rest) == run
  {
    var s := run + [NUL] + rest;
    var n := |run|;
    AppNameShape(s);
    var r := AppName(s);
    assert s[0] == run[0];
    assert LeadingNuls(s) == 0;
    assert r != "";
    assert s[..n] == run;
    assert s[n] == NUL;
    assert s[..|r|] == r;
  }

  /** The WM_CLASS value "Firefox\0firefox\0" names the application "Firefox". */
  lemma FirefoxExample()
    ensures AppName("Firefox\0firefox\0") == "Firefox"
  {
    assert "Firefox\0firefox\0" == "Firefox" + [NUL] + "firefox\0";
    AppNameOfLeadingRun("Firefox", "firefox\0");
  }
}

=== FILE: enumerate.dfy ===
/** `ImplWindow::all`: lists the client windows of every screen in
    `_NET_CLIENT_LIST_STACKING` order (section 3, Root Window Properties,
    of the Extended Window Manager Hints), numbers them with a running
    `z`, resolves each one, drops the ones that fail and returns the rest
    frontmost first. */
module Enumerate {
  import opened Wrappers
  import opened XProto
  import opened Geometry
  import opened ActiveWindow
  import opened Resolve

  /** One entry of a screen's client list, with the replies the server
      gives for it: the `_NET_WM_PID` lookup and read, and the replies
      `ImplWindow::new` consumes. */
  datatype Client = Client(
    id: WindowId,
    pidAtom: Option<Atom>,
    pidProperty: Option<Property<u32>>,
    replies: WindowReplies)

  /** One entry of `setup.roots()`. `activeWindow` is the root's stored
      `_NET_ACTIVE_WINDOW` property, `sameScreen` the QueryPointer reply's
      `same_screen` and `clientList` the stored client list; each is
      absent when its round trip failed. Both properties are read with
      any type accepted. */
  datatype Screen = Screen(
    activeWindow: Option<Property<u32>>,
    sameScreen: Option<bool>,
    clientList: Option<Property<Client>>)

  /** Everything `all()` learns from the server and from `ImplMonitor::all`. */
  datatype Session = Session(
    connected: bool,                    // Connection::connect succeeded
    clientListAtom: Option<Atom>,
    activeAtom: Option<Atom>,
    monitors: Option<seq<Monitor>>,     // ImplMonitor::all, absent on failure
    screens: seq<Screen>)

  /** The value of a root's `_NET_ACTIVE_WINDOW` read, absent when the
      read failed. */
  function ActiveValue(screen: Screen): (r: Option<seq<u32>>)
    ensures r.None? <==> screen.activeWindow.None?
    ensures r.Some? ==> r.value <= screen.activeWindow.value.items
    ensures r.Some? ==> (|r.value| > 0 <==> |screen.activeWindow.value.items| > 0)
  {
    match screen.activeWindow
    case None => None
    case Some(p) => Some(ReadProperty(p, ANY_PROPERTY_TYPE, ACTIVE_LONG_LENGTH))
  }

  function ActiveReplies(screens: seq<Screen>): (r: seq<Option<seq<u32>>>)
    ensures |r| == |screens|
    ensures forall i :: 0 <= i < |screens| ==> r[i] == ActiveValue(screens[i])
  {
    seq(|screens|, i requires 0 <= i < |screens| => ActiveValue(screens[i]))
  }

  /** The window `all()` would focus-flag, computed once before the loop:
      the first value on the first root whose `_NET_ACTIVE_WINDOW` is not
      empty, unless a read fails first or the atom is unsupported. */
  function Active(s: Session): (r: Option<WindowId>)
    ensures GetAtom("_NET_ACTIVE_WINDOW", s.activeAtom).Failure? ==> r == None
    ensures GetAtom("_NET_ACTIVE_WINDOW", s.activeAtom).Success? ==>
              forall i :: 0 <= i < |s.screens| && EmptyBefore(ActiveReplies(s.screens), i) ==>
                && (s.screens[i].activeWindow.None? ==> r == None)
                && (s.screens[i].activeWindow.Some? && |s.screens[i].activeWindow.value.items| > 0 ==>
                      r == Some(s.screens[i].activeWindow.value.items[0]))
    ensures EmptyBefore(ActiveReplies(s.screens), |s.screens|) ==> r == None
  {
    GetActiveWindowId(s.activeAtom, ActiveReplies(s.screens))
  }

  /** The clients a screen contributes: none when the pointer query fails,
      reports another screen, or the client list cannot be read; otherwise
      the first 1024 entries of its list. */
  function Listed(screen: Screen): (r: seq<Client>)
    ensures screen.sameScreen != Some(true) || screen.clientList.None? ==> r == []
    ensures screen.sameScreen == Some(true) && screen.clientList.Some? ==>
              r == ReadItems(screen.clientList.value.items, CLIENT_LIST_LONG_LENGTH)
  {
    if screen.sameScreen == Some(true) && screen.clientList.Some? then
      ReadProperty(screen.clientList.value, ANY_PROPERTY_TYPE, CLIENT_LIST_LONG_LENGTH)
    else []
  }

  /** All clients the loop visits, in visiting order; the client at
      position `i` is the one the loop gives `z == i`. */
  function ListedClients(screens: seq<Screen>): (r: seq<Client>)
    ensures |r| <= CLIENT_LIST_LONG_LENGTH * |screens|
  {
    FlatMapBounded(screens, Listed, CLIENT_LIST_LONG_LENGTH);
    FlatMap(screens, Listed)
  }

  /** The concatenation of `f(x)` over `xs`, in order. */
  function FlatMap<S, T>(xs: seq<S>, f: S -> seq<T>): seq<T>
    decreases |xs|
  {
    if |xs| == 0 then [] else FlatMap(xs[..|xs| - 1], f) + f(xs[|xs| - 1])
  }

  /** Parts of at most `bound` items give at most `bound` items per part. */
  lemma {:induction false} FlatMapBounded<S, T>(xs: seq<S>, f: S -> seq<T>, bound: nat)
    requires forall x :: x in xs ==> |f(x)| <= bound
    ensures |FlatMap(xs, f)| <= bound * |xs|
    decreases |xs|
  {
    if |xs| > 0 {
      var n := |xs| - 1;
      assert forall x :: x in xs[..n] ==> x in xs;
      assert xs[n] in xs;
      FlatMapBounded(xs[..n], f, bound);
    }
  }

  /** Flattening distributes over concatenation of the inputs. */
  lemma {:induction false} FlatMapAppend<S, T>(a: seq<S>, b: seq<S>, f: S -> seq<T>)
    ensures FlatMap(a + b, f) == FlatMap(a, f) + FlatMap(b, f)
    decreases |b|
  {
    if |b| > 0 {
      var n := |b| - 1;
      assert (a + b)[..|a + b| - 1] == a + b[..n];
      assert (a + b)[|a + b| - 1] == b[n];
      FlatMapAppend(a, b[..n], f);
    } else {
      assert a + b == a;
    }
  }

  /** An item is in the flattening exactly when some part holds it. */
  lemma {:induction false} FlatMapMembers<S, T>(xs: seq<S>, f: S -> seq<T>, y: T)
    ensures y in FlatMap(xs, f) <==> exists i :: 0 <= i < |xs| && y in f(xs[i])
    decreases |xs|
  {
    if |xs| > 0 {
      var n := |xs| - 1;
      FlatMapMembers(xs[..n], f, y);
      if y in FlatMap(xs[..n], f) {
        var i :| 0 <= i < n && y in f(xs[..n][i]);
        assert xs[..n][i] == xs[i];
      }
      if exists i :: 0 <= i < |xs| && y in f(xs[i]) {
        var i :| 0 <= i < |xs| && y in f(xs[i]);
        if i < n {
          assert xs[..n][i] == xs[i];
        }
      }
    }
  }

  /** One pass of the inner loop body for client `c` holding `z`: its pid,
      then its record; `None` when either fails. */
  function Resolved(c: Client, z: int, active: Option<WindowId>, monitors: seq<Monitor>,
                    decode: Utf8Decoder): (r: Option<Window>)
    ensures r.Some? ==> r.value.z == z
  {
    var pid :- GetWindowPid(c.pidAtom, c.pidProperty).ToOption();
    NewWindow(c.replies, c.id, pid, z, active == Some(c.id), monitors, decode).ToOption()
  }

  /** What resolving a client yields: it succeeds exactly when its pid and
      its record do, and the record is that client's, focus-flagged when
      it is the active window. */
  lemma ResolvedSpec(c: Client, z: int, active: Option<WindowId>, monitors: seq<Monitor>, decode: Utf8Decoder)
    ensures var r := Resolved(c, z, active, monitors, decode);
            && (r.Some? <==> GetWindowPid(c.pidAtom, c.pidProperty).Success? && Resolvable(c.replies, monitors, decode))
            && (r.Some? ==>
                  && r.value.id == c.id
                  && r.value.pid == GetWindowPid(c.pidAtom, c.pidProperty).value
                  && (r.value.isFocused <==> active == Some(c.id))
                  && WellFormed(r.value, monitors))
  {
  }

  /** The outcome of the loop body for every listed client, the client at
      position `i` holding `z == i`. */
  function Outcomes(cs: seq<Client>, active: Option<WindowId>, monitors: seq<Monitor>,
                    decode: Utf8Decoder): (r: seq<Option<Window>>)
    ensures |r| == |cs| && Stamped(r)
  {
    if |cs| == 0 then []
    else
      var n := |cs| - 1;
      Outcomes(cs[..n], active, monitors, decode) + [Resolved(cs[n], n, active, monitors, decode)]
  }

  lemma {:induction false} OutcomesAt(cs: seq<Client>, i: int, active: Option<WindowId>, monitors: seq<Monitor>,
                                      decode: Utf8Decoder)
    requires 0 <= i < |cs|
    ensures Outcomes(cs, active, monitors, decode)[i] == Resolved(cs[i], i, active, monitors, decode)
    decreases |cs|
  {
    var n := |cs| - 1;
    if i < n {
      OutcomesAt(cs[..n], i, active, monitors, decode);
    }
  }

  /** Each successful outcome carries its own position as `z`. */
  ghost predicate Stamped(outs: seq<Option<Window>>) {
    forall i :: 0 <= i < |outs| && outs[i].Some? ==> outs[i].value.z == i
  }

  /** `impl_windows` before the reversal: the successful outcomes, in
      order. Every window sits at the position its `z` names, and `z`
      strictly increases. */
  function Collect(outs: seq<Option<Window>>): (r: seq<Window>)
    requires Stamped(outs)
    ensures forall k :: 0 <= k < |r| ==> 0 <= r[k].z < |outs| && outs[r[k].z] == Some(r[k])
    ensures forall k, l :: 0 <= k < l < |r| ==> r[k].z < r[l].z
  {
    if |outs| == 0 then []
    else
      var n := |outs| - 1;
      var front := Collect(outs[..n]);
      match outs[n]
      case Some(w) => front + [w]
      case None => front
  }

  /** Every successful outcome appears in the collected list. */
  lemma {:induction false} CollectComplete(outs: seq<Option<Window>>, i: int)
    requires Stamped(outs)
    requires 0 <= i < |outs| && outs[i].Some?
    ensures outs[i].value in Collect(outs)
    decreases |outs|
  {
    var n := |outs| - 1;
    if i < n {
      assert outs[..n][i] == outs[i];
      CollectComplete(outs[..n], i);
    }
  }

  /** `impl_windows.reverse()`. */
  function Reverse<T>(s: seq<T>): (r: seq<T>)
    ensures |r| == |s|
    ensures forall i :: 0 <= i < |s| ==> r[i] == s[|s| - 1 - i]
  {
    if |s| == 0 then [] else [s[|s| - 1]] + Reverse(s[..|s| - 1])
  }

  /** The z/skip/reverse loop of `ImplWindow::all`. */
  method All(s: Session, decode: Utf8Decoder) returns (r: XResult<seq<Window>>)
    ensures !s.connected ==> r == Failure(ConnectionError)
    ensures r.Success? <==>
              s.connected && GetAtom("_NET_CLIENT_LIST_STACKING", s.clientListAtom).Success? && s.monitors.Some?
    ensures r.Success? ==>
              r.value == Reverse(Collect(Outcomes(ListedClients(s.screens), Active(s), s.monitors.value, decode)))
    ensures r.Success? ==> forall i, j :: 0 <= i < j < |r.value| ==> r.value[i].z > r.value[j].z
    ensures r.Success? ==> forall i :: 0 <= i < |r.value| ==>
              && 0 <= r.value[i].z < |ListedClients(s.screens)|
              && WellFormed(r.value[i], s.monitors.value)
              && (r.value[i].isFocused <==> Active(s) == Some(r.value[i].id))
  {
    if !s.connected {
      return Failure(ConnectionError);
    }
    var atom := GetAtom("_NET_CLIENT_LIST_STACKING", s.clientListAtom);
    if atom.Failure? {
      return Failure(atom.error);
    }
    var active := GetActiveWindowId(s.activeAtom, ActiveReplies(s.screens));
    if s.monitors.None? {
      return Failure(MonitorEnumerationFailed);
    }
    var monitors := s.monitors.value;
    var windows := VisitScreens(s.screens, active, monitors, decode);
    FrontmostFirst(ListedClients(s.screens), active, monitors, decode);
    r := Success(Reverse(windows));
  }

  /** The `for screen in setup.roots()` loop, with `z` starting at -1: a
      screen whose pointer query or client-list read fails is skipped, as is
      one that is not the pointer's screen. */
  method VisitScreens(screens: seq<Screen>, active: Option<WindowId>, monitors: seq<Monitor>,
                      decode: Utf8Decoder)
    returns (windows: seq<Window>)
    ensures windows == Collect(Outcomes(ListedClients(screens), active, monitors, decode))
  {
    windows := [];
    var z := -1;
    var si := 0;
    while si < |screens|
      invariant 0 <= si <= |screens|
      invariant z == |ListedClients(screens[..si])| - 1
      invariant windows == Collect(Outcomes(ListedClients(screens[..si]), active, monitors, decode))
    {
      var screen := screens[si];
      ghost var before := ListedClients(screens[..si]);
      assert ListedClients(screens[..si + 1]) == before + Listed(screen) by {
        assert screens[..si + 1][..si] == screens[..si];
      }
      if screen.sameScreen == Some(true) && screen.clientList.Some? {
        var clients := ReadProperty(screen.clientList.value, ANY_PROPERTY_TYPE, CLIENT_LIST_LONG_LENGTH);
        z, windows := VisitClients(clients, before, z, windows, active, monitors, decode);
      } else {
        assert before + Listed(screen) == before;
      }
      si := si + 1;
    }
    assert screens[..si] == screens;
  }

  /** The inner `for client in ...` loop over one screen's client list:
      bumps `z` before each pid lookup and appends each client that
      resolves. `before` are the clients visited on earlier screens. */
  method VisitClients(clients: seq<Client>, ghost before: seq<Client>, z0: int, windows0: seq<Window>,
                      active: Option<WindowId>, monitors: seq<Monitor>, decode: Utf8Decoder)
    returns (z: int, windows: seq<Window>)
    requires z0 == |before| - 1
    requires windows0 == Collect(Outcomes(before, active, monitors, decode))
    ensures z == |before| + |clients| - 1
    ensures windows == Collect(Outcomes(before + clients, active, monitors, decode))
  {
    z, windows := z0, windows0;
    var ci := 0;
    ghost var seen := before;
    PrefixExtends(before, clients, 0);
    while ci < |clients|
      invariant 0 <= ci <= |clients|
      invariant seen == before + clients[..ci]
      invariant z == |seen| - 1
      invariant windows == Collect(Outcomes(seen, active, monitors, decode))
    {
      z := z + 1;
      var client := clients[ci];
      windows := VisitClient(client, z, seen, windows, active, monitors, decode);
      PrefixExtends(before, clients, ci);
      seen := seen + [client];
      ci := ci + 1;
    }
    PrefixExtends(before, clients, ci);
  }

  /** The body of the inner loop for the client holding `z`: a failed pid
      lookup skips it, as does a failed `ImplWindow::new`; otherwise its
      record is appended. `seen` are the clients visited before it. */
  method VisitClient(client: Client, z: int, ghost seen: seq<Client>, windows0: seq<Window>,
                     active: Option<WindowId>, monitors: seq<Monitor>, decode: Utf8Decoder)
    returns (windows: seq<Window>)
    requires z == |seen|
    requires windows0 == Collect(Outcomes(seen, active, monitors, decode))
    ensures windows == Collect(Outcomes(seen + [client], active, monitors, decode))
  {
    windows := windows0;
    var pid := GetWindowPid(client.pidAtom, client.pidProperty);
    CollectStep(seen, client, z, pid, active, monitors, decode);
    if pid.Success? {
      var isFocused := active == Some(client.id);
      var w := NewWindow(client.replies, client.id, pid.value, z, isFocused, monitors, decode);
      if w.Success? {
        windows := windows + [w.value];
      }
    }
  }

  /** Growing a prefix of `b` by one element, and the whole of `b` as its
      longest prefix. */
  lemma PrefixExtends<T>(a: seq<T>, b: seq<T>, i: int)
    requires 0 <= i <= |b|
    ensures i == 0 ==> a + b[..i] == a
    ensures i < |b| ==> a + b[..i + 1] == (a + b[..i]) + [b[i]]
    ensures i == |b| ==> a + b[..i] == a + b
  {
    if i < |b| {
      assert b[..i + 1] == b[..i] + [b[i]];
    }
  }

  /** One pass of the inner loop body: the client at position `|cs|` is
      resolved with `z == |cs|` and, if that succeeds, appended. */
  lemma CollectStep(cs: seq<Client>, c: Client, z: int, pid: XResult<u32>, active: Option<WindowId>,
                    monitors: seq<Monitor>, decode: Utf8Decoder)
    requires z == |cs| && pid == GetWindowPid(c.pidAtom, c.pidProperty)
    ensures pid.Failure? ==>
              Collect(Outcomes(cs + [c], active, monitors, decode)) == Collect(Outcomes(cs, active, monitors, decode))
    ensures pid.Success? ==>
              var w := NewWindow(c.replies, c.id, pid.value, z, active == Some(c.id), monitors, decode);
              Collect(Outcomes(cs + [c], active, monitors, decode)) ==
              Collect(Outcomes(cs, active, monitors, decode)) + (if w.Success? then [w.value] else [])
  {
    var outs := Outcomes(cs + [c], active, monitors, decode);
    assert (cs + [c])[..|cs|] == cs;
    assert outs == Outcomes(cs, active, monitors, decode) + [Resolved(c, |cs|, active, monitors, decode)];
    assert outs[..|cs|] == Outcomes(cs, active, monitors, decode);
    CollectSnoc(outs, Collect(Outcomes(cs, active, monitors, decode)));
  }

  /** The windows of `ws` whose `z` is not `z`, in order. */
  function DropZ(ws: seq<Window>, z: int): (r: seq<Window>)
    ensures forall k :: 0 <= k < |r| ==> r[k].z != z
  {
    if |ws| == 0 then []
    else
      var n := |ws| - 1;
      DropZ(ws[..n], z) + (if ws[n].z == z then [] else [ws[n]])
  }

  lemma {:induction false} DropZAbsent(ws: seq<Window>, z: int)
    requires forall k :: 0 <= k < |ws| ==> ws[k].z != z
    ensures DropZ(ws, z) == ws
  {
    if |ws| > 0 {
      var n := |ws| - 1;
      DropZAbsent(ws[..n], z);
      SplitLast(ws);
    }
  }

  /** A non-empty sequence is its front followed by its last element. */
  lemma SplitLast<T>(s: seq<T>)
    requires |s| > 0
    ensures s[..|s| - 1] + [s[|s| - 1]] == s
  {
  }

  /** `DropZ` keeps exactly the windows whose `z` differs. */
  lemma {:induction false} DropZMembers(ws: seq<Window>, z: int, w: Window)
    ensures w in DropZ(ws, z) <==> w in ws && w.z != z
  {
    if |ws| > 0 {
      var n := |ws| - 1;
      DropZMembers(ws[..n], z, w);
      assert ws == ws[..n] + [ws[n]];
    }
  }

  /** Turning one outcome into a failure removes exactly the window with
      that `z` and leaves every other window, and its `z`, as it was. */
  lemma {:induction false} FailedOutcomeOnlyDropsItsWindow(outs: seq<Option<Window>>, i: int)
    requires Stamped(outs)
    requires 0 <= i < |outs|
    ensures Stamped(outs[i := None])
    ensures Collect(outs[i := None]) == DropZ(Collect(outs), i)
    decreases |outs|
  {
    var n := |outs| - 1;
    var outs' := outs[i := None];
    assert Stamped(outs');
    var front := Collect(outs[..n]);
    var front' := Collect(outs'[..n]);
    if i == n {
      assert outs'[..n] == outs[..n];
      DropZAbsent(front, n);
      CollectSnoc(outs, front);
    } else {
      assert outs'[..n] == outs[..n][i := None];
      FailedOutcomeOnlyDropsItsWindow(outs[..n], i);
      assert front' == DropZ(front, i);
      CollectSnoc(outs, front);
      CollectSnoc(outs', front');
    }
  }

  /** One step of `Collect`, spelled out. */
  lemma CollectSnoc(outs: seq<Option<Window>>, front: seq<Window>)
    requires Stamped(outs) && |outs| > 0
    requires front == Collect(outs[..|outs| - 1])
    ensures outs[|outs| - 1].None? ==> Collect(outs) == front
    ensures outs[|outs| - 1].Some? ==> Collect(outs) == front + [outs[|outs| - 1].value]
    ensures outs[|outs| - 1].Some? ==> DropZ(Collect(outs), |outs| - 1) == DropZ(front, |outs| - 1)
  {
    var n := |outs| - 1;
    if outs[n].Some? {
      assert (front + [outs[n].value])[..|front|] == front;
    }
  }

  /** A client that fails to resolve costs only its own window: every other
      window keeps its `z` and all its fields, because the failed client
      still used up its `z`. */
  lemma FailedClientOnlyDropsItsWindow(
    cs: seq<Client>, i: int, failing: Client, active: Option<WindowId>, monitors: seq<Monitor>, decode: Utf8Decoder)
    requires 0 <= i < |cs|
    requires Resolved(failing, i, active, monitors, decode).None?
    ensures Collect(Outcomes(cs[i := failing], active, monitors, decode)) ==
            DropZ(Collect(Outcomes(cs, active, monitors, decode)), i)
  {
    var outs := Outcomes(cs, active, monitors, decode);
    var outs' := Outcomes(cs[i := failing], active, monitors, decode);
    forall j | 0 <= j < |cs|
      ensures outs'[j] == outs[i := None][j]
    {
      OutcomesAt(cs, j, active, monitors, decode);
      OutcomesAt(cs[i := failing], j, active, monitors, decode);
    }
    assert outs' == outs[i := None];
    FailedOutcomeOnlyDropsItsWindow(outs, i);
  }

  /** In particular, a client whose pid cannot be read drops out and leaves
      every other window as it was. */
  lemma PidFailureOnlyDropsItsWindow(
    cs: seq<Client>, i: int, failing: Client, active: Option<WindowId>, monitors: seq<Monitor>, decode: Utf8Decoder)
    requires 0 <= i < |cs|
    requires GetWindowPid(failing.pidAtom, failing.pidProperty).Failure?
    ensures Collect(Outcomes(cs[i := failing], active, monitors, decode)) ==
            DropZ(Collect(Outcomes(cs, active, monitors, decode)), i)
  {
    ResolvedSpec(failing, i, active, monitors, decode);
    FailedClientOnlyDropsItsWindow(cs, i, failing, active, monitors, decode);
  }

  /** Every listed client that resolves appears in the result. */
  lemma ResolvedClientPresent(cs: seq<Client>, i: int, active: Option<WindowId>,
                              monitors: seq<Monitor>, decode: Utf8Decoder)
    requires 0 <= i < |cs|
    requires Resolved(cs[i], i, active, monitors, decode).Some?
    ensures Resolved(cs[i], i, active, monitors, decode).value in Collect(Outcomes(cs, active, monitors, decode))
  {
    OutcomesAt(cs, i, active, monitors, decode);
    CollectComplete(Outcomes(cs, active, monitors, decode), i);
  }

  /** A client whose title bytes are not valid UTF-8 has no window in the result. */
  lemma InvalidTitleAbsent(cs: seq<Client>, i: int, active: Option<WindowId>,
                           monitors: seq<Monitor>, decode: Utf8Decoder)
    requires 0 <= i < |cs|
    requires cs[i].replies.title.Some?
    requires decode(TextBytes(cs[i].replies.title.value)).None?
    ensures forall w :: w in Collect(Outcomes(cs, active, monitors, decode)) ==> w.z != i
  {
    ResolvedSpec(cs[i], i, active, monitors, decode);
    OutcomesAt(cs, i, active, monitors, decode);
  }

  /** Every collected window is well formed and focus-flagged exactly when
      it is the active window. */
  lemma CollectedWindowsWellFormed(cs: seq<Client>, active: Option<WindowId>,
                                   monitors: seq<Monitor>, decode: Utf8Decoder)
    ensures var ws := Collect(Outcomes(cs, active, monitors, decode));
            forall k :: 0 <= k < |ws| ==>
              WellFormed(ws[k], monitors) && (ws[k].isFocused <==> active == Some(ws[k].id))
  {
    var ws := Collect(Outcomes(cs, active, monitors, decode));
    forall k | 0 <= k < |ws|
      ensures WellFormed(ws[k], monitors) && (ws[k].isFocused <==> active == Some(ws[k].id))
    {
      OutcomesAt(cs, ws[k].z, active, monitors, decode);
      ResolvedSpec(cs[ws[k].z], ws[k].z, active, monitors, decode);
    }
  }

  /** The reversed list puts the highest `z` first, and every window in it
      keeps the properties of its own resolution. */
  lemma FrontmostFirst(cs: seq<Client>, active: Option<WindowId>, monitors: seq<Monitor>, decode: Utf8Decoder)
    ensures var ws := Reverse(Collect(Outcomes(cs, active, monitors, decode)));
            && (forall i, j :: 0 <= i < j < |ws| ==> ws[i].z > ws[j].z)
            && (forall i :: 0 <= i < |ws| ==>
                  && 0 <= ws[i].z < |cs|
                  && WellFormed(ws[i], monitors)
                  && (ws[i].isFocused <==> active == Some(ws[i].id)))
  {
    CollectedWindowsWellFormed(cs, active, monitors, decode);
  }

  /** The visiting order is screen by screen. */
  lemma ListedClientsAppend(a: seq<Screen>, b: seq<Screen>)
    ensures ListedClients(a + b) == ListedClients(a) + ListedClients(b)
  {
    FlatMapAppend(a, b, Listed);
  }

  lemma ListedClientsMembers(screens: seq<Screen>, c: Client)
    ensures c in ListedClients(screens) <==> exists i :: 0 <= i < |screens| && c in Listed(screens[i])
  {
    FlatMapMembers(screens, Listed, c);
  }

  /** A screen whose pointer query or client-list read fails, or that is
      not the pointer's screen, contributes no client and no `z` value. */
  lemma SkippedScreenContributesNothing(screens: seq<Screen>, i: int)
    requires 0 <= i < |screens|
    requires screens[i].sameScreen != Some(true) || screens[i].clientList.None?
    ensures ListedClients(screens) == ListedClients(screens[..i] + screens[i + 1..])
  {
    var a, x, b := screens[..i], screens[i], screens[i + 1..];
    assert screens == a + [x] + b;
    SkippedScreenListsNothing(x);
    ListedClientsRemoveEmpty(a, x, b);
  }

  lemma SkippedScreenListsNothing(x: Screen)
    requires x.sameScreen != Some(true) || x.clientList.None?
    ensures ListedClients([x]) == []
  {
    assert [x][..0] == [];
    assert FlatMap([x], Listed) == FlatMap([], Listed) + Listed(x);
  }

  lemma ListedClientsRemoveEmpty(a: seq<Screen>, x: Screen, b: seq<Screen>)
    requires ListedClients([x]) == []
    ensures ListedClients(a + [x] + b) == ListedClients(a + b)
  {
    ListedClientsAppend(a + [x], b);
    ListedClientsAppend(a, [x]);
    ListedClientsAppend(a, b);
  }
}

=== FILE: geometry.dfy ===
/** Axis-aligned rectangles in the shared global coordinate space, the
    monitors the window backend is handed, and the overlap area used to
    decide which monitor a window belongs to. */
module Geometry {

  /** `Rect::new(x, y, width, height)`: origin plus unsigned extent. */
  datatype Rect = Rect(x: int, y: int, width: nat, height: nat)

  /** The part of a monitor record this backend reads. `id` stands in for
      the monitor's remaining fields, which are copied along unchanged. */
  datatype Monitor = Monitor(id: nat, x: int, y: int, width: nat, height: nat) {
    function Bounds(): Rect {
      Rect(x, y, width, height)
    }
  }

  function Min(a: int, b: int): int { if a <= b then a else b }
  function Max(a: int, b: int): int { if a <= b then b else a }

  /** Length of the intersection of the intervals [a, a + la) and [b, b + lb). */
  function OverlapLength(a: int, la: nat, b: int, lb: nat): (r: nat)
    ensures r <= la && r <= lb
    ensures r > 0 <==> 0 < la && 0 < lb && a < b + lb && b < a + la
    ensures b <= a && a + la <= b + lb ==> r == la
    ensures a <= b && b + lb <= a + la ==> r == lb
  {
    var lo := Max(a, b);
    var hi := Min(a + la, b + lb);
    if hi <= lo then 0 else hi - lo
  }

  /** Area of the intersection of two rectangles; zero when they are disjoint. */
  function OverlapArea(p: Rect, q: Rect): (r: nat)
    ensures r > 0 <==> OverlapLength(p.x, p.width, q.x, q.width) > 0 &&
                       OverlapLength(p.y, p.height, q.y, q.height) > 0
  {
    OverlapLength(p.x, p.width, q.x, q.width) * OverlapLength(p.y, p.height, q.y, q.height)
  }

  /** Overlap does not depend on which rectangle is the window. */
  lemma OverlapAreaSymmetric(p: Rect, q: Rect)
    ensures OverlapArea(p, q) == OverlapArea(q, p)
  {
  }

  /** A rectangle lying inside another overlaps it with its whole area. */
  lemma OverlapAreaContained(p: Rect, q: Rect)
    requires q.x <= p.x && p.x + p.width <= q.x + q.width
    requires q.y <= p.y && p.y + p.height <= q.y + q.height
    ensures OverlapArea(p, q) == p.width * p.height
  {
  }

  /** The overlap never exceeds the area of either rectangle. */
  lemma OverlapAreaBounded(p: Rect, q: Rect)
    ensures OverlapArea(p, q) <= p.width * p.height
    ensures OverlapArea(p, q) <= q.width * q.height
  {
    var lx := OverlapLength(p.x, p.width, q.x, q.width);
    var ly := OverlapLength(p.y, p.height, q.y, q.height);
    MulMonotone(lx, p.width, ly, p.height);
    MulMonotone(lx, q.width, ly, q.height);
  }

  lemma MulMonotone(a: nat, b: nat, c: nat, d: nat)
    requires a <= b && c <= d
    ensures a * c <= b * d
  {
    assert a * c <= b * c;
    assert b * c <= b * d;
  }
}

=== FILE: monitor_assign.dfy ===
/** Monitor assignment of `ImplWindow::new`: a window belongs to the
    monitor it overlaps most. The scan is seeded with the first monitor
    and a best area of 0 and only replaces its choice on a strictly
    larger area, so ties go to the earliest monitor. */
module MonitorAssign {
  import opened Wrappers
  import opened XProto
  import opened Geometry

  function Area(window: Rect, m: Monitor): nat {
    OverlapArea(window, m.Bounds())
  }

  /** `k` is the earliest index whose monitor has the largest overlap. */
  ghost predicate IsFirstMax(window: Rect, monitors: seq<Monitor>, k: int) {
    && 0 <= k < |monitors|
    && (forall j :: 0 <= j < |monitors| ==> Area(window, monitors[j]) <= Area(window, monitors[k]))
    && (forall j :: 0 <= j < k ==> Area(window, monitors[j]) < Area(window, monitors[k]))
  }

  /** The `for impl_monitor in impl_monitors` loop from position `i` on,
      with `best` and `maxArea` the loop's `find_result` and `max_area`.
      The requires clauses are the loop invariant. */
  function Scan(window: Rect, monitors: seq<Monitor>, i: nat, best: nat, maxArea: nat): (k: nat)
    requires i <= |monitors| && best < |monitors|
    requires best == 0 || best < i
    requires i == 0 ==> maxArea == 0
    requires i > 0 ==> maxArea == Area(window, monitors[best])
    requires forall j :: 0 <= j < i ==> Area(window, monitors[j]) <= maxArea
    requires forall j :: 0 <= j < best ==> Area(window, monitors[j]) < maxArea
    ensures IsFirstMax(window, monitors, k)
    decreases |monitors| - i
  {
    if i == |monitors| then best
    else
      var area := Area(window, monitors[i]);
      if area > maxArea then Scan(window, monitors, i + 1, i, area)
      else Scan(window, monitors, i + 1, best, maxArea)
  }

  /** The index the loop settles on, seeded with the first monitor and a
      best area of 0: the earliest monitor of largest overlap. */
  function AssignedIndex(window: Rect, monitors: seq<Monitor>): (k: nat)
    requires |monitors| > 0
    ensures IsFirstMax(window, monitors, k)
  {
    Scan(window, monitors, 0, 0, 0)
  }

  /** The `current_monitor` block: an empty monitor list is an error;
      otherwise the monitor at the assigned index. */
  function AssignMonitor(window: Rect, monitors: seq<Monitor>): (r: XResult<Monitor>)
    ensures r.Failure? <==> |monitors| == 0
    ensures r.Failure? ==> r.error == NoMonitors
    ensures r.Success? ==> r.value == monitors[AssignedIndex(window, monitors)]
  {
    if |monitors| == 0 then Failure(NoMonitors)
    else Success(monitors[AssignedIndex(window, monitors)])
  }

  /** There is only one earliest maximum, so the assignment is determined. */
  lemma FirstMaxUnique(window: Rect, monitors: seq<Monitor>, k1: int, k2: int)
    requires IsFirstMax(window, monitors, k1) && IsFirstMax(window, monitors, k2)
    ensures k1 == k2
  {
    assert Area(window, monitors[k1]) <= Area(window, monitors[k2]);
    assert Area(window, monitors[k2]) <= Area(window, monitors[k1]);
  }

  /** Any index shown to be the earliest maximum is the one assigned. */
  lemma AssignMonitorIs(window: Rect, monitors: seq<Monitor>, k: int)
    requires IsFirstMax(window, monitors, k)
    ensures AssignMonitor(window, monitors) == Success(monitors[k])
  {
    FirstMaxUnique(window, monitors, k, AssignedIndex(window, monitors));
  }

  /** A window overlapping no monitor falls back to the first monitor. */
  lemma NoOverlapAssignsFirst(window: Rect, monitors: seq<Monitor>)
    requires |monitors| > 0
    requires forall j :: 0 <= j < |monitors| ==> Area(window, monitors[j]) == 0
    ensures AssignMonitor(window, monitors) == Success(monitors[0])
  {
    AssignMonitorIs(window, monitors, 0);
  }

  /** A window overlapping exactly one monitor is assigned that monitor,
      wherever it sits in the list. */
  lemma SoleOverlapAssignsIt(window: Rect, monitors: seq<Monitor>, k: int)
    requires 0 <= k < |monitors| && Area(window, monitors[k]) > 0
    requires forall j :: 0 <= j < |monitors| && j != k ==> Area(window, monitors[j]) == 0
    ensures AssignMonitor(window, monitors) == Success(monitors[k])
  {
    AssignMonitorIs(window, monitors, k);
  }

  /** A window straddling two side-by-side 1920x1080 monitors with equal
      overlap (120x100 on each) is assigned the first of them. */
  lemma TieGoesToFirstMonitor()
    ensures var left := Monitor(0, 0, 0, 1920, 1080);
            var right := Monitor(1, 1920, 0, 1920, 1080);
            AssignMonitor(Rect(1800, 0, 240, 100), [left, right]) == Success(left)
  {
    var left := Monitor(0, 0, 0, 1920, 1080);
    var right := Monitor(1, 1920, 0, 1920, 1080);
    var w := Rect(1800, 0, 240, 100);
    assert Area(w, left) == 12000;
    assert Area(w, right) == 12000;
    AssignMonitorIs(w, [left, right], 0);
  }

  /** A window lying inside the first monitor only is assigned it, in
      either list order. */
  lemma ContainedWindowAssignsItsMonitor()
    ensures var left := Monitor(0, 0, 0, 1920, 1080);
            var right := Monitor(1, 1920, 0, 1920, 1080);
            var w := Rect(1000, 0, 100, 100);
            AssignMonitor(w, [left, right]) == Success(left) &&
            AssignMonitor(w, [right, left]) == Success(left)
  {
    var left := Monitor(0, 0, 0, 1920, 1080);
    var right := Monitor(1, 1920, 0, 1920, 1080);
    var w := Rect(1000, 0, 100, 100);
    assert Area(w, left) == 10000;
    assert Area(w, right) == 0;
    SoleOverlapAssignsIt(w, [left, right], 0);
    SoleOverlapAssignsIt(w, [right, left], 1);
  }
}

=== FILE: resolve.dfy ===
/** `ImplWindow::new`: turns the replies the X server gives for one
    client window into the window record, or into the error of the first
    step that failed. */
module Resolve {
  import opened Wrappers
  import opened XProto
  import opened Geometry
  import opened MonitorAssign
  import opened WindowState
  import opened ClassName

  /** `str::from_utf8`, whose outcome on a byte string is taken as given:
      the decoded text, or nothing when the bytes are not valid UTF-8. */
  type Utf8Decoder = seq<byte> -> Option<string>

  /** A GetGeometry reply: position relative to the parent, and size. */
  datatype GeometryReply = GeometryReply(root: WindowId, x: i16, y: i16, width: u16, height: u16)

  /** A TranslateCoordinates reply: the translated point in the root's space. */
  datatype TranslateReply = TranslateReply(dstX: i16, dstY: i16)

  /** What the server answers, per request, while one window is resolved.
      Each field is absent when that round trip failed. Property fields hold
      the stored property; the request's type and `long_length` are
      applied here. */
  datatype WindowReplies = WindowReplies(
    title: Option<Property<byte>>,   // WM_NAME, read as STRING
    wmClass: Option<Property<byte>>, // WM_CLASS, read as STRING
    geometry: Option<GeometryReply>,
    translation: Option<TranslateReply>,
    stateAtom: Option<Atom>,         // InternAtom replies, in request order
    hiddenAtom: Option<Atom>,
    vertAtom: Option<Atom>,
    horzAtom: Option<Atom>,
    state: Option<Property<Atom>>)   // _NET_WM_STATE, read as ATOM

  /** The window record `ImplWindow` (the `window` handle is `id`). */
  datatype Window = Window(
    id: WindowId,
    title: string,
    appName: string,
    pid: u32,
    currentMonitor: Monitor,
    x: int,
    y: int,
    z: int,
    width: nat,
    height: nat,
    isMinimized: bool,
    isMaximized: bool,
    isFocused: bool)
  {
    function Bounds(): Rect {
      Rect(x, y, width, height)
    }
  }

  /** What every record built by `NewWindow` satisfies: its monitor is
      the earliest monitor of largest overlap, and it is never both
      minimized and maximized. */
  ghost predicate WellFormed(w: Window, monitors: seq<Monitor>) {
    && |monitors| > 0
    && w.currentMonitor == monitors[AssignedIndex(w.Bounds(), monitors)]
    && !(w.isMinimized && w.isMaximized)
  }

  /** The bytes a STRING read of `long_length` 1024 returns. */
  function TextBytes(p: Property<byte>): seq<byte> {
    ReadProperty(p, ATOM_STRING, 4 * TEXT_LONG_LENGTH)
  }

  /** Reads a text property as STRING with `long_length` 1024 and decodes
      it. A property stored under another type reads as no bytes. */
  function ReadText(reply: Option<Property<byte>>, decode: Utf8Decoder): (r: XResult<string>)
    ensures r.Success? <==> reply.Some? && decode(TextBytes(reply.value)).Some?
    ensures r.Success? ==> r.value == decode(TextBytes(reply.value)).value
    ensures reply.None? ==> r == Failure(ConnectionError)
    ensures reply.Some? && r.Failure? ==> r.error == TextDecodeError
    ensures reply.Some? && reply.value.storedType == ATOM_STRING ==>
              r == decode(ReadItems(reply.value.items, 4 * TEXT_LONG_LENGTH)).ToResult(TextDecodeError)
    ensures reply.Some? && reply.value.storedType != ATOM_STRING ==> r == decode([]).ToResult(TextDecodeError)
  {
    var p :- Await(reply);
    decode(TextBytes(p)).ToResult(TextDecodeError)
  }

  /** The window's origin in root coordinates. TranslateCoordinates maps
      the point (x, y) of the window's own coordinates into the root, so
      the window's root origin offset by (x, y) is the translated point. */
  function Position(g: GeometryReply, t: TranslateReply): (p: (int, int))
    ensures p.0 + g.x == t.dstX && p.1 + g.y == t.dstY
  {
    (t.dstX - g.x, t.dstY - g.y)
  }

  /** All four state atoms resolve, as the state block needs. */
  predicate StateAtomsSupported(rep: WindowReplies) {
    && GetAtom("_NET_WM_STATE", rep.stateAtom).Success?
    && GetAtom("_NET_WM_STATE_HIDDEN", rep.hiddenAtom).Success?
    && GetAtom("_NET_WM_STATE_MAXIMIZED_VERT", rep.vertAtom).Success?
    && GetAtom("_NET_WM_STATE_MAXIMIZED_HORZ", rep.horzAtom).Success?
  }

  /** Every step of `ImplWindow::new` succeeds on these replies. */
  predicate Resolvable(rep: WindowReplies, monitors: seq<Monitor>, decode: Utf8Decoder) {
    && ReadText(rep.title, decode).Success?
    && ReadText(rep.wmClass, decode).Success?
    && rep.geometry.Some? && rep.translation.Some?
    && |monitors| > 0
    && StateAtomsSupported(rep)
    && rep.state.Some?
  }

  /** `ImplWindow::new(conn, window, pid, z, is_focused, impl_monitors)`. */
  function NewWindow(rep: WindowReplies, id: WindowId, pid: u32, z: int, isFocused: bool,
                     monitors: seq<Monitor>, decode: Utf8Decoder): (r: XResult<Window>)
    ensures r.Success? ==>
              r.value.id == id && r.value.pid == pid && r.value.z == z && r.value.isFocused == isFocused
  {
    var title :- ReadText(rep.title, decode);
    var wmClass :- ReadText(rep.wmClass, decode);
    var g :- Await(rep.geometry);
    var t :- Await(rep.translation);
    var (x, y) := Position(g, t);
    var bounds := Rect(x, y, g.width, g.height);
    var monitor :- AssignMonitor(bounds, monitors);
    var _ :- GetAtom("_NET_WM_STATE", rep.stateAtom);
    var hidden :- GetAtom("_NET_WM_STATE_HIDDEN", rep.hiddenAtom);
    var vert :- GetAtom("_NET_WM_STATE_MAXIMIZED_VERT", rep.vertAtom);
    var horz :- GetAtom("_NET_WM_STATE_MAXIMIZED_HORZ", rep.horzAtom);
    var states :- Await(rep.state);
    var st := DecodeState(ReadProperty(states, ATOM_ATOM, STATE_LONG_LENGTH), hidden, vert, horz);
    var w := Window(id, title, AppName(wmClass), pid, monitor, x, y, z, g.width, g.height,
                    st.isMinimized, st.isMaximized, isFocused);
    assert w.Bounds() == bounds;
    Success(w)
  }

  /** What `ImplWindow::new` promises: it fails exactly when one of its
      steps does (an invalid title being a decode error), and a record it
      builds carries the given identity, the decoded title and application
      name, the global position, the earliest monitor of largest overlap and
      the state flags of the first 12 listed atoms. */
  lemma NewWindowSpec(rep: WindowReplies, id: WindowId, pid: u32, z: int, isFocused: bool,
                      monitors: seq<Monitor>, decode: Utf8Decoder)
    ensures var r := NewWindow(rep, id, pid, z, isFocused, monitors, decode);
            && (r.Success? <==> Resolvable(rep, monitors, decode))
            && (rep.title.Some? && decode(TextBytes(rep.title.value)).None? ==>
                  r == Failure(TextDecodeError))
            && (r.Success? ==> WellFormed(r.value, monitors))
            && (r.Success? ==>
                  && r.value.id == id && r.value.pid == pid && r.value.z == z
                  && r.value.isFocused == isFocused
                  && r.value.title == ReadText(rep.title, decode).value
                  && r.value.appName == AppName(ReadText(rep.wmClass, decode).value)
                  && (r.value.x, r.value.y) == Position(rep.geometry.value, rep.translation.value)
                  && r.value.width == rep.geometry.value.width
                  && r.value.height == rep.geometry.value.height)
            && (r.Success? ==>
                  var listed := ReadProperty(rep.state.value, ATOM_ATOM, STATE_LONG_LENGTH);
                  && (r.value.isMinimized <==> rep.hiddenAtom.value in listed)
                  && (r.value.isMaximized <==>
                        rep.hiddenAtom.value !in listed && rep.vertAtom.value in listed && rep.horzAtom.value in listed))
  {
  }

  /** A title stored under a type other than STRING (COMPOUND_TEXT,
      UTF8_STRING) reads as no bytes, so whatever bytes it holds the window
      keeps an empty title. */
  lemma MistypedTitleReadsEmpty(rep: WindowReplies, id: WindowId, pid: u32, z: int, isFocused: bool,
                                monitors: seq<Monitor>, decode: Utf8Decoder)
    requires rep.title.Some? && rep.title.value.storedType != ATOM_STRING
    requires decode([]) == Some("")
    requires Resolvable(rep, monitors, decode)
    ensures NewWindow(rep, id, pid, z, isFocused, monitors, decode).Success?
    ensures NewWindow(rep, id, pid, z, isFocused, monitors, decode).value.title == ""
  {
    NewWindowSpec(rep, id, pid, z, isFocused, monitors, decode);
  }

  /** Only the first 12 state atoms are read: a hidden atom listed after
      them leaves the window not minimized. */
  lemma HiddenBeyondStateLimitIgnored(rep: WindowReplies, id: WindowId, pid: u32, z: int, isFocused: bool,
                                      monitors: seq<Monitor>, decode: Utf8Decoder)
    requires Resolvable(rep, monitors, decode)
    requires |rep.state.value.items| > STATE_LONG_LENGTH
    requires rep.hiddenAtom.value !in rep.state.value.items[..STATE_LONG_LENGTH]
    ensures !NewWindow(rep, id, pid, z, isFocused, monitors, decode).value.isMinimized
  {
  }
}

=== FILE: window_state.dfy ===
/** Decoding of `_NET_WM_STATE` (section 5, Application Window
    Properties, of the Extended Window Manager Hints) into the
    minimized and maximized flags of a window record. */
module WindowState {
  import opened XProto

  /** `wm_state.iter().any(|&state| state == atom)`. */
  function Contains(states: seq<Atom>, atom: Atom): (b: bool)
    ensures b <==> atom in states
  {
    if |states| == 0 then false
    else states[0] == atom || Contains(states[1..], atom)
  }

  datatype WmState = WmState(isMinimized: bool, isMaximized: bool)

  /** A window is minimized when the hidden atom is listed, and maximized
      when it is not minimized and both maximized atoms are listed. */
  function DecodeState(states: seq<Atom>, hidden: Atom, vert: Atom, horz: Atom): (r: WmState)
    ensures r.isMinimized <==> hidden in states
    ensures r.isMaximized <==> hidden !in states && vert in states && horz in states
    ensures !(r.isMinimized && r.isMaximized)
  {
    var minimized := Contains(states, hidden);
    WmState(minimized, !minimized && Contains(states, vert) && Contains(states, horz))
  }

  /** The flags depend only on which atoms are listed, not on their order
      or repetition. */
  lemma DecodeStateIgnoresOrder(s1: seq<Atom>, s2: seq<Atom>, hidden: Atom, vert: Atom, horz: Atom)
    requires forall a :: a in s1 <==> a in s2
    ensures DecodeState(s1, hidden, vert, horz) == DecodeState(s2, hidden, vert, horz)
  {
  }
}

=== FILE: wrappers.dfy ===
/** Failure-compatible Option and Result datatypes used to carry server
    replies and the error path of every decoder in this model. */
module Wrappers {

  /** A value that may be absent; here usually a server round trip that
      produced no reply. */
  datatype Option<+T> = None | Some(value: T) {

    predicate IsFailure() {
      None?
    }

    function PropagateFailure<U>(): Option<U>
      requires None?
    {
      None
    }

    function Extract(): T
      requires Some?
    {
      value
    }

    /** Converts a missing value into the given error. */
    function ToResult<E>(error: E): (r: Result<T, E>)
      ensures r.Success? <==> Some?
      ensures r.Success? ==> r.value == value
      ensures r.Failure? ==> r.error == error
    {
      match this
      case Some(v) => Success(v)
      case None => Failure(error)
    }
  }

  /** Either a value or the error that prevented computing it. */
  datatype Result<+R, +E> = Success(value: R) | Failure(error: E) {

    predicate IsFailure() {
      Failure?
    }

    function PropagateFailure<U>(): Result<U, E>
      requires Failure?
    {
      Failure(error)
    }

    function Extract(): R
      requires Success?
    {
      value
    }

    /** Forgets the error, as Rust's `Result::ok` does. */
    function ToOption(): (o: Option<R>)
      ensures o.Some? <==> Success?
      ensures o.Some? ==> o.value == value
    {
      match this
      case Success(v) => Some(v)
      case Failure(_) => None
    }
  }
}

=== FILE: xproto.dfy ===
/** The slice of the X11 protocol the window backend relies on: integer
    widths, atoms, what a GetProperty request returns of a stored
    property, and the two small reply decoders `get_atom` and
    `get_window_pid`. */
module XProto {
  import opened Wrappers

  type u32 = x: int | 0 <= x < 0x1_0000_0000
  type u16 = x: int | 0 <= x < 0x1_0000
  type i16 = x: int | -0x8000 <= x < 0x8000
  type byte = x: int | 0 <= x < 0x100

  /** An interned name; `NONE` (0) means the server does not know it. */
  type Atom = u32
  const NONE: Atom := 0

  /** Predefined atoms used as property types (X11 protocol, appendix B). */
  const ATOM_ATOM: Atom := 4
  const ATOM_CARDINAL: Atom := 6
  const ATOM_STRING: Atom := 31
  /** `ATOM_NONE` passed as the requested type: AnyPropertyType. */
  const ANY_PROPERTY_TYPE: Atom := 0

  /** A window property as the server stores it: its type and its items.
      A property that does not exist is stored with type `NONE` and no items. */
  datatype Property<T> = Property(storedType: Atom, items: seq<T>)

  /** The window system's handle of a window, as `resource_id` reports it. */
  type WindowId = u32

  /** The failures `ImplWindow::new`, `ImplWindow::all` and their helpers report. */
  datatype XError =
    | ConnectionError            // a request whose reply never arrived
    | UnsupportedAtom(name: string)
    | TextDecodeError            // `str::from_utf8` refused the bytes
    | NoMonitors                 // "Get screen info failed"
    | PidNotFound                // "Get window pid failed"
    | MonitorEnumerationFailed   // `ImplMonitor::all` failed

  type XResult<T> = Result<T, XError>

  /** A round trip: a missing reply becomes a connection error. */
  function Await<T>(reply: Option<T>): (r: XResult<T>)
    ensures r.Success? <==> reply.Some?
    ensures r.Success? ==> r.value == reply.value
    ensures r.Failure? ==> r.error == ConnectionError
  {
    reply.ToResult(ConnectionError)
  }

  /** The value a GetProperty request with `long_offset` 0 returns: at
      most `limit` items of the stored property. For 32-bit formats
      `limit` is `long_length`; for 8-bit strings it is `4 * long_length`. */
  function ReadItems<T>(stored: seq<T>, limit: nat): (r: seq<T>)
    ensures |r| == if |stored| <= limit then |stored| else limit
    ensures r <= stored
  {
    if |stored| <= limit then stored else stored[..limit]
  }

  /** The value of a GetProperty reply with `long_offset` 0 for a
      requested type: the first `limit` items when the type matches or any
      type is accepted, and nothing when the property is stored under
      another type. */
  function ReadProperty<T>(p: Property<T>, requestedType: Atom, limit: nat): (r: seq<T>)
    ensures requestedType != ANY_PROPERTY_TYPE && p.storedType != requestedType ==> r == []
    ensures requestedType == ANY_PROPERTY_TYPE || p.storedType == requestedType ==>
              |r| == (if |p.items| <= limit then |p.items| else limit) && r <= p.items
  {
    if requestedType != ANY_PROPERTY_TYPE && p.storedType != requestedType then []
    else ReadItems(p.items, limit)
  }

  /** `long_length` of the `_NET_WM_PID` and `_NET_ACTIVE_WINDOW` reads. */
  const PID_LONG_LENGTH: nat := 4
  const ACTIVE_LONG_LENGTH: nat := 4
  /** `long_length` of the WM_NAME and WM_CLASS reads, in 32-bit units. */
  const TEXT_LONG_LENGTH: nat := 1024
  /** `long_length` of the `_NET_WM_STATE` read. */
  const STATE_LONG_LENGTH: nat := 12
  /** `long_length` of the `_NET_CLIENT_LIST_STACKING` read. */
  const CLIENT_LIST_LONG_LENGTH: nat := 1024

  /** `get_atom`: an InternAtom request with `only_if_exists`. The reply
      is the server's atom for `name`, or absent if the round trip failed. */
  function GetAtom(name: string, reply: Option<Atom>): (r: XResult<Atom>)
    ensures r.Success? <==> reply.Some? && reply.value != NONE
    ensures r.Success? ==> r.value == reply.value && r.value != NONE
    ensures reply.None? ==> r == Failure(ConnectionError)
    ensures reply == Some(NONE) ==> r == Failure(UnsupportedAtom(name))
  {
    var atom :- Await(reply);
    if atom == NONE then Failure(UnsupportedAtom(name)) else Success(atom)
  }

  /** `get_window_pid`: looks up `_NET_WM_PID`, reads the window's
      CARDINAL property and takes its first value. `atomReply` is the
      InternAtom reply and `property` the stored property, absent when
      the GetProperty round trip failed. */
  function GetWindowPid(atomReply: Option<Atom>, property: Option<Property<u32>>): (r: XResult<u32>)
    ensures r.Success? <==>
              && GetAtom("_NET_WM_PID", atomReply).Success? && property.Some?
              && property.value.storedType == ATOM_CARDINAL && |property.value.items| > 0
    ensures r.Success? ==> r.value == property.value.items[0]
    ensures GetAtom("_NET_WM_PID", atomReply).Failure? ==>
              r == Failure(GetAtom("_NET_WM_PID", atomReply).error)
    ensures GetAtom("_NET_WM_PID", atomReply).Success? && property.None? ==> r == Failure(ConnectionError)
    ensures GetAtom("_NET_WM_PID", atomReply).Success? && property.Some? &&
            (property.value.storedType != ATOM_CARDINAL || property.value.items == []) ==>
              r == Failure(PidNotFound)
  {
    var atom :- GetAtom("_NET_WM_PID", atomReply);
    var p :- Await(property);
    var values := ReadProperty(p, ATOM_CARDINAL, PID_LONG_LENGTH);
    if |values| == 0 then Failure(PidNotFound) else Success(values[0])
  }
}
